=== FILE: README.md ===
# Task tracker model

A Dafny model of a single-user command-line task tracker. Each task is kept
as one JSON file named after its id. The model covers the following:

- **The task entity** (`Tasks`): the closed status enum and its label table,
  and the constructor. The constructor replaces a blank name with "no name"
  and a blank description with "no desc"; otherwise it trims them. It builds
  the id as the lower-case hexadecimal text of the digest of name,
  description and creation time. The entity also has the `Name`,
  `Description` and `Status` setters and the one-line `ToString`.
- **The hexadecimal encoding** of the id (`Hex`), with a decoder that is its
  proved inverse.
- **White-space rules** (`Text`): .NET's `Char.IsWhiteSpace`,
  `String.IsNullOrWhiteSpace` and `String.Trim()`.
- **The persisted record** (`TaskJson`): the six properties `ToJson` writes,
  and the validation `FromJson` applies when a file is loaded back.
- **The command layer** (`Commands`, `Listing`, `Cli`): find, add, update,
  mark, remove and show as transitions on the task directory. The directory
  is a map from file name to the record stored there. `list` is modelled as
  the option's status filter and a pass over the enumerated files. `Main`'s
  dispatch is a function from the argument vector to a command.

Two behaviours of the code are easy to miss, and the model follows the code
on both:

- The `Name` and `Description` setters store their value verbatim. Only the
  constructor trims and substitutes the sentinels, so `update` can store
  untrimmed text.
- The id hashes the bare concatenation of name, description and creation
  time. So ("ab", "c") and ("a", "bc") get the same id at the same creation
  time (`Tasks.IdIgnoresFieldBoundary`).

The digest (MD5 of the UTF-8 bytes) and `DateTime.TryParse` are fields of a
`Platform` value. The clock is passed in as text: a `Clock` holds the two
readings a construction takes, in the order the field initialisers run.

## Model

| member | source | states |
|---|---|---|
| Tasks.CodeBijective | TaskTracker/Task.cs:7 | the three statuses and the codes 0, 1, 2 correspond one to one |
| Tasks.IsDefined | TaskTracker/Task.cs:103 | a status code is defined exactly when the label table has an entry for it |
| Tasks.Label | TaskTracker/Task.cs:11-15 | a status's label is the label table's entry for its code |
| Tasks.LabelInjective | TaskTracker/Task.cs:11-15 | no two statuses share a label |
| Tasks.Normalise | TaskTracker/Task.cs:63-64 | a stored constructor argument is never blank and has no white space at either end; a blank argument becomes the sentinel and any other argument becomes its trimmed text |
| Tasks.NormaliseIdempotent | TaskTracker/Task.cs:63-64 | normalising a normalised value changes nothing |
| Tasks.New | TaskTracker/Task.cs:62-76 | name and description become the sentinel when blank and the trimmed text otherwise; the id is the hex digest of name + description + the creation reading; the status is to-do; the update time is the first clock reading and the creation time the second (Task.cs:22-23) |
| Tasks.NewTrimsPadding | TaskTracker/Task.cs:63-64 | a trimmed argument surrounded by any blank padding is stored without the padding |
| Tasks.NewKeepsTrimmed | TaskTracker/Task.cs:63-64 | an argument that is already trimmed and not blank is stored as given |
| Tasks.BlankNameIsSentinel | TaskTracker/Task.cs:63 | any blank name gives the same task as the literal "no name" |
| Tasks.IdOf | TaskTracker/Task.cs:66-75 | the id has two lower-case hex characters per digest byte |
| Tasks.IdOfMatchesDigest | TaskTracker/Task.cs:66-75 | two texts share an id exactly when they share a digest |
| Tasks.IdDependsOnConcatenation | TaskTracker/Task.cs:66-68 | equal concatenations of the normalised name and description give equal ids |
| Tasks.IdIgnoresFieldBoundary | TaskTracker/Task.cs:66 | ("ab", "c") and ("a", "bc") get the same id |
| Tasks.SetName | TaskTracker/Task.cs:33-41 | the name is stored verbatim and the update time refreshed; every other field is unchanged |
| Tasks.SetDescription | TaskTracker/Task.cs:25-31 | the description is stored verbatim and the update time refreshed; every other field is unchanged |
| Tasks.SetStatus | TaskTracker/Task.cs:43-55 | an undefined code is refused with InvalidStatus; a defined one sets that status and the update time and changes nothing else |
| Tasks.ApplyKeepsIdentity | TaskTracker/Task.cs:18-55 | no sequence of setter calls changes the id or the creation time |
| Tasks.Render | TaskTracker/Task.cs:57-60 | the rendered line is id, name, label, created, updated and description joined by ", " |
| Tasks.RenderStartsWithId | TaskTracker/Task.cs:59 | for an id without a comma, the text before the first comma of the line is the id |
| Tasks.NewRenderStartsWithId | TaskTracker/Task.cs:59 | every constructed task's line begins with its id |
| Hex.EncodeByte | TaskTracker/Task.cs:72 | "x2" gives exactly two lower-case hex digits |
| Hex.Encode | TaskTracker/Task.cs:70-75 | the text has two lower-case hex digits per byte |
| Hex.DigitRoundTrip | TaskTracker/Task.cs:72 | writing a nibble as a digit and reading it back are inverse |
| Hex.DecodeCons | TaskTracker/Task.cs:72 | decoding reads one encoded byte off the front |
| Hex.DecodeEncode | TaskTracker/Task.cs:70-75 | decoding the hex text of any bytes gives those bytes back |
| Hex.EncodeDecode | TaskTracker/Task.cs:70-75 | any text that decodes is the hex text of what it decodes to |
| Hex.EncodeInjective | TaskTracker/Task.cs:70-75 | different bytes never give the same hex text |
| Text.Blank | TaskTracker/Task.cs:63-64 | a text is blank exactly when its leading white space runs to its end, so the empty text is blank; with `Trim`'s contract, exactly when its trim is empty, as `String.IsNullOrWhiteSpace` is documented |
| Text.Trim | TaskTracker/Task.cs:63-64 | the result has no white space at either end, and is empty exactly when the input is blank |
| Text.TrimOfPadded | TaskTracker/Task.cs:63-64 | trimming a trimmed text wrapped in blank padding gives back that text |
| Text.TrimSplits | TaskTracker/Task.cs:63-64 | every text is its trim with blank padding on either side |
| Text.TrimIdempotent | TaskTracker/Task.cs:63-64 | trimming twice is trimming once |
| TaskJson.GetString | TaskTracker/Task.cs:86-91 | a missing property or one that is not a string is an error; a string is read as is and null as "" |
| TaskJson.GetInt32 | TaskTracker/Task.cs:88 | the read succeeds exactly on a number within 32 signed bits |
| TaskJson.ToJson | TaskTracker/Task.cs:117-138 | the record has exactly the six properties Id, Name, Status, Description, Created_at and Updated_at |
| TaskJson.FromJson | TaskTracker/Task.cs:80-115 | a load succeeds exactly when all six properties read and no text is blank, both timestamps parse, and the status is defined; a blank field is reported before a bad timestamp; a record that passes every earlier test but holds an undefined status code is refused as a bad status; on success every property equals what `ToJson` writes for the result |
| TaskJson.RoundTrip | TaskTracker/Task.cs:108-136 | a saved task loads back exactly when its texts are not blank and its timestamps parse, and then it loads back unchanged |
| TaskJson.LoadedIsStorable | TaskTracker/Task.cs:93-114 | whatever loads can be saved and loaded back unchanged |
| TaskJson.FromJsonReadsKeysOnly | TaskTracker/Task.cs:85-91 | records that agree on the six properties load the same |
| TaskJson.ExtraPropertiesIgnored | TaskTracker/Task.cs:85-91 | adding any other property does not change the load |
| TaskJson.NewRoundTrips | TaskTracker/Task.cs:62-76 | with an MD5 digest and parsable clock readings, a new task survives saving and loading |
| Commands.KeyOf | TaskTracker/Program.cs:23 | the file name is the id followed by ".json" |
| Commands.KeyOfInjective | TaskTracker/Program.cs:23 | distinct ids never share a file name |
| Commands.Load | TaskTracker/Task.cs:80-115 | a missing file is NotFound; a stored file loads exactly as `FromJson` allows, and a refusal is Corrupt with its reason |
| Commands.Save | TaskTracker/Task.cs:117-138 | the id's file holds the task's record afterwards, and no other file changes |
| Commands.SavePreservesWellKeyed | TaskTracker/Task.cs:125 | saving keeps every record in the file its id names |
| Commands.FindTask | TaskTracker/Program.cs:16-24 | a blank id is refused before the directory is read; otherwise the task is loaded from id + ".json" |
| Commands.FoundTaskHasId | TaskTracker/Program.cs:16-24 | in a well-keyed directory the found task has the id it was looked up by |
| Commands.CreateTask | TaskTracker/Program.cs:8-14 | the constructed task is saved under its id and no other file changes |
| Commands.FindAfterCreate | TaskTracker/Program.cs:8-24 | looking up a just-added task's id finds exactly that task |
| Commands.RemoveTask | TaskTracker/Program.cs:26-35 | a blank id is refused; otherwise the id's file is gone afterwards, absent or not before, and no other file changes |
| Commands.RemoveThenFind | TaskTracker/Program.cs:26-35 | a removed task is not found, and removing twice is removing once |
| Commands.UpdateTask | TaskTracker/Program.cs:37-48 | the update succeeds exactly when the description is not blank and the id is found; a blank description is refused before the lookup; a lookup failure is passed on; on success only the description and update time of the found task change, written under the id its record holds |
| Commands.UpdateThenFind | TaskTracker/Program.cs:37-48 | in a well-keyed directory the updated task loads back with the new description and time, and no other file changes |
| Commands.UpdateFollowsRecordedId | TaskTracker/Program.cs:44-46 | a file "a.json" whose record says Id "b" is rewritten as "b.json", and "a.json" stays |
| Commands.MarkTask | TaskTracker/Program.cs:50-59 | an undefined status is refused before the lookup; on success only the found task's file changes, to the new status and update time |
| Commands.MarkThenFind | TaskTracker/Program.cs:50-59 | in a well-keyed directory the marked task loads back with the new status and time, and every other file is untouched |
| Commands.ShowTask | TaskTracker/Program.cs:61-65 | the shown line is the rendering of the found task, and it fails exactly as the lookup does |
| Listing.FilterOf | TaskTracker/Program.cs:69-75 | "done", "todo" and "in-progress" select their status; any other option, an absent one included, selects -1 (no filter) |
| Listing.Keep | TaskTracker/Program.cs:83 | a task is printed exactly when the filter is -1 or names a defined status equal to the task's |
| Listing.FilterKeepsNamedStatus | TaskTracker/Program.cs:69-83 | an option naming a status keeps exactly the tasks with that status; any other option keeps every task |
| Listing.SelectMembers | TaskTracker/Program.cs:83-86 | the printed tasks are exactly those loaded that the filter keeps |
| Listing.SelectAll | TaskTracker/Program.cs:83 | without a filter every task is printed, in order |
| Listing.SelectSnoc | TaskTracker/Program.cs:80-87 | one more loaded file extends the printed lines by that task when the filter keeps it |
| Listing.LoadEach | TaskTracker/Program.cs:80-82 | the pass loads every file exactly when each one loads, in enumeration order |
| Listing.LoadEachSnoc | TaskTracker/Program.cs:80-82 | loading one more file extends the loaded tasks by that file's task |
| Listing.ListOver | TaskTracker/Program.cs:67-89 | when every file loads, the printed tasks are the filtered loads in order; otherwise the first failing file ends the pass after the lines for the files before it |
| Listing.ListTasks | TaskTracker/Program.cs:67-89 | the same, with each file loaded by `FromJson` |
| Listing.ListedAreExactlyMatching | TaskTracker/Program.cs:77-87 | over an enumeration of the whole directory, a task is printed exactly when it is stored and kept by the filter |
| Listing.NoFilterListsAll | TaskTracker/Program.cs:80-87 | without a filter there is one printed task per file, in enumeration order |
| Cli.Dispatch | TaskTracker/Program.cs:91-128 | no arguments means help; add and update need exactly three arguments; remove, delete, show and the marks need exactly two; get-curr-folder and list take any count; anything else is help |
| Cli.WrongCountIsHelp | TaskTracker/Program.cs:97-128 | a guarded command word with the wrong argument count prints the help |
| Cli.RemoveAliasesDelete | TaskTracker/Program.cs:105-107 | "remove" and "delete" are the same command |
| Cli.Step | TaskTracker/Program.cs:95-158 | a failed command writes nothing; show, list, get-curr-folder and help never write; a blank description of `update` fails with `EmptyDescription`; otherwise a blank id of update, remove, show or a mark fails with `EmptyId` |
| Cli.StepPreservesWellKeyed | TaskTracker/Program.cs:95-128 | every command keeps each record in the file its id names |
| Cli.RunAdd | TaskTracker/Program.cs:99-101 | `add` saves the constructed task |
| Cli.RunMark | TaskTracker/Program.cs:112-120 | `mark-todo`, `mark-in-progress` and `mark-done` reply exactly as `MarkTask` with their status and the first clock reading does, a failure leaving the directory unchanged; for a findable task each succeeds |
| Cli.RunUpdate | TaskTracker/Program.cs:102-104 | `update` replies exactly as `UpdateTask` with the first clock reading does, a failure leaving the directory unchanged |
| Cli.RunRemove | TaskTracker/Program.cs:105-108 | `remove` replies exactly as `RemoveTask` does, and `delete` replies exactly as `remove` |
| Cli.Run | TaskTracker/Program.cs:91-128 | with no arguments, or an unknown command or wrong count, nothing is written and nothing fails; a failed command leaves the directory unchanged |
| Cli.AddMarkDoneShow | TaskTracker/Program.cs:99-120 | in any directory, after `add`, then `mark-done` of the new id, the id finds the added task with status done and the later update time |

## Left out

- File-system calls are replaced by the directory map: `File.OpenRead`, `File.Create`, `File.Delete`, `Directory.GetFiles` and `Directory.CreateDirectory`. So is the user-profile location of the task directory.
- Cli.Step: `list` over a task directory that was never created throws `DirectoryNotFoundException` (Program.cs:77). The map has no notion of a missing directory, so the model's `list` over no files succeeds. Likewise `remove`/`delete` (Program.cs:33): `File.Delete` throws `DirectoryNotFoundException` on Windows when that directory is missing, and does nothing on Unix; the model's `RemoveTask` succeeds as on Unix.
- Listing.ListTasks: the directory's enumeration order is platform-defined, so it is a parameter. A file in the directory that is not JSON, or whose root is not an object, aborts the listing in the code. The model cannot represent such a file.
- Commands.KeyOf: `Path.Combine` lets a rooted id, or one holding a path separator, name a file outside the directory. On a case-insensitive file system, ids that differ only in case share a file. The model treats file names as exact, distinct strings.
- TaskJson.FromJson: JSON text is not modelled. A record is the parsed map of its root object's properties, so syntax errors (`JsonException`) and duplicate property names are not represented. A number with a fraction or exponent is `JOther`, which `GetInt32` refuses, as the code does.
- The digest is a `Platform` function field of unconstrained length. MD5 always gives 16 bytes, and the lemmas that need a non-empty id require this as `Md5Like`. The UTF-8 encoding before hashing is part of that function.
- Strings are sequences of Unicode scalar values, while .NET strings are UTF-16 code units. Texts with surrogate pairs are not distinguished.
- `DateTime.Now.ToString()` and `DateTime.TryParse` depend on culture. They become opaque clock texts and the `parsesDate` predicate. Nothing is said about update times never going backwards.
- Console output is not modelled: the help text, the header and footer lines of `list`, the `get-curr-folder` path, the messages printed by `add` and `update`, and the message chosen by each catch block in `Main`. Each command's outcome is the new directory plus the error it ended in, if any.

=== FILE: cli.dfy ===
/** `Main`: the choice of command from the argument vector, guarded by
    argument count, and the effect of each command on the task directory. */
module Cli {
  import opened Common
  import opened Text
  import opened Tasks
  import opened TaskJson
  import opened Commands
  import opened Listing

  /** What `Main` runs. */
  datatype Command =
    | Add(name: string, description: string)
    | Update(id: string, description: string)
    | Remove(id: string)
    | Show(id: string)
    | Mark(id: string, status: Status)
    | CurrentFolder
    | List(option: Option<string>)
    | Help

  /** The dispatch of `Main`: the first argument names the command (help when
      there is none); the guarded commands need their exact argument count,
      and anything unmatched prints the help. */
  function Dispatch(args: seq<string>): (c: Command)
    ensures |args| == 0 ==> c == Help
    ensures c.Add? <==> |args| == 3 && args[0] == "add"
    ensures c.Update? <==> |args| == 3 && args[0] == "update"
    ensures c.Remove? <==> |args| == 2 && (args[0] == "remove" || args[0] == "delete")
    ensures c.Show? <==> |args| == 2 && args[0] == "show"
    ensures c.Mark? <==> |args| == 2 && args[0] in {"mark-todo", "mark-in-progress", "mark-done"}
    ensures c.CurrentFolder? <==> |args| > 0 && args[0] == "get-curr-folder"
    ensures c.List? <==> |args| > 0 && args[0] == "list"
    ensures c.Add? ==> c == Add(args[1], args[2])
    ensures c.Update? ==> c == Update(args[1], args[2])
    ensures c.Remove? || c.Show? || c.Mark? ==> c.id == args[1]
    ensures c.Mark? ==> (c.status == Todo <==> args[0] == "mark-todo")
    ensures c.Mark? ==> (c.status == InProgress <==> args[0] == "mark-in-progress")
    ensures c.Mark? ==> (c.status == Done <==> args[0] == "mark-done")
    ensures c.List? ==> c.option == (if |args| > 1 then Some(args[1]) else None)
  {
    var command := if |args| > 0 then args[0] else "help";
    if command == "add" && |args| == 3 then Add(args[1], args[2])
    else if command == "update" && |args| == 3 then Update(args[1], args[2])
    else if (command == "remove" || command == "delete") && |args| == 2 then Remove(args[1])
    else if command == "show" && |args| == 2 then Show(args[1])
    else if command == "mark-todo" && |args| == 2 then Mark(args[1], Todo)
    else if command == "mark-in-progress" && |args| == 2 then Mark(args[1], InProgress)
    else if command == "mark-done" && |args| == 2 then Mark(args[1], Done)
    else if command == "get-curr-folder" then CurrentFolder
    else if command == "list" then List(if |args| > 1 then Some(args[1]) else None)
    else Help
  }

  /** The argument count, command word included, that a guarded command
      word needs; `None` for the words taken at any count. */
  function Arity(word: string): Option<nat> {
    if word in {"add", "update"} then Some(3)
    else if word in {"remove", "delete", "show", "mark-todo", "mark-in-progress", "mark-done"} then Some(2)
    else None
  }

  /** A guarded command word given with any other argument count prints the help. */
  lemma WrongCountIsHelp(args: seq<string>)
    requires |args| > 0 && Arity(args[0]).Some? && |args| != Arity(args[0]).value
    ensures Dispatch(args) == Help
  {
  }

  /** "remove" and "delete" are the same command. */
  lemma RemoveAliasesDelete(id: string)
    ensures Dispatch(["remove", id]) == Dispatch(["delete", id]) == Remove(id)
  {
  }

  /** The outcome of one command: the directory afterwards, and the error it
      ended in, if any. */
  datatype Reply = Reply(store: Store, failure: Option<Error>)

  /** The failure of a result, if it is one. */
  function FailureOf<T>(r: Result<T, Error>): Option<Error> {
    if r.Ok? then None else Some(r.error)
  }

  /** One run of a command against the directory. `files` is the directory's
      enumeration and `clock` the command's clock readings: `add` constructs
      with both, while update and the marks set the update time from the
      first. A failed command writes nothing, and only add, update, remove
      and the marks write at all. */
  function Step(p: Platform, store: Store, files: seq<string>, clock: Clock, c: Command): (r: Reply)
    ensures r.failure.Some? ==> r.store == store
    ensures c.Show? || c.List? || c.CurrentFolder? || c.Help? ==> r.store == store
    ensures c.CurrentFolder? || c.Help? || c.Add? ==> r.failure.None?
    ensures c.Remove? || c.Show? || c.Mark? ==> (Blank(c.id) ==> r.failure == Some(EmptyId))
    ensures c.Update? && Blank(c.description) ==> r.failure == Some(EmptyDescription)
    ensures c.Update? && !Blank(c.description) && Blank(c.id) ==> r.failure == Some(EmptyId)
  {
    match c
    case Add(name, description) =>
      Reply(CreateTask(p, store, name, description, clock).0, None)
    case Update(id, description) =>
      var r := UpdateTask(p, store, id, description, clock.first);
      if r.Ok? then Reply(r.value.0, None) else Reply(store, Some(r.error))
    case Remove(id) =>
      var r := RemoveTask(store, id);
      if r.Ok? then Reply(r.value, None) else Reply(store, Some(r.error))
    case Show(id) =>
      Reply(store, FailureOf(ShowTask(p, store, id)))
    case Mark(id, status) =>
      var r := MarkTask(p, store, id, Code(status), clock.first);
      if r.Ok? then Reply(r.value, None) else Reply(store, Some(r.error))
    case CurrentFolder => Reply(store, None)
    case List(option) => Reply(store, FailureOf(LoadEach(LoaderOf(p, store), files)))
    case Help => Reply(store, None)
  }

  /** `Main` on an argument vector: without arguments, or with an unknown
      command or a wrong argument count, it only prints; a failed command
      writes nothing. */
  function Run(p: Platform, store: Store, files: seq<string>, clock: Clock, args: seq<string>): (r: Reply)
    ensures Dispatch(args).Help? ==> r == Reply(store, None)
    ensures |args| == 0 ==> r == Reply(store, None)
    ensures r.failure.Some? ==> r.store == store
  {
    Step(p, store, files, clock, Dispatch(args))
  }

  /** The command word that marks a task with `s`. */
  function MarkWord(s: Status): string {
    match s
    case Todo => "mark-todo"
    case InProgress => "mark-in-progress"
    case Done => "mark-done"
  }

  /** Every command keeps each record in the file its id names. */
  lemma {:induction false} StepPreservesWellKeyed(p: Platform, store: Store, files: seq<string>, clock: Clock, c: Command)
    requires WellKeyed(store)
    ensures WellKeyed(Step(p, store, files, clock, c).store)
  {
    match c
    case Add(name, description) =>
      SavePreservesWellKeyed(store, New(p, name, description, clock));
    case Update(id, description) =>
      var r := UpdateTask(p, store, id, description, clock.first);
      if r.Ok? {
        SavePreservesWellKeyed(store, r.value.1);
      }
    case Mark(id, status) =>
      var r := MarkTask(p, store, id, Code(status), clock.first);
      if r.Ok? {
        var before := FindTask(p, store, id).value;
        SavePreservesWellKeyed(store, before.(status := status, updatedAt := clock.first));
      }
    case _ =>
  }

  /** `add <name> <description>` saves the constructed task. */
  lemma {:induction false} RunAdd(p: Platform, store: Store, files: seq<string>, clock: Clock, name: string, description: string)
    ensures Run(p, store, files, clock, ["add", name, description]).store == Save(store, New(p, name, description, clock))
  {
    assert Dispatch(["add", name, description]) == Add(name, description);
  }

  /** `update <id> <description>` runs `UpdateTask` with the first clock
      reading: on success the directory is the one it writes, otherwise the
      directory is unchanged and the command fails with its error. */
  lemma {:induction false} RunUpdate(p: Platform, store: Store, files: seq<string>, clock: Clock,
                                     id: string, description: string)
    ensures var u := UpdateTask(p, store, id, description, clock.first);
            Run(p, store, files, clock, ["update", id, description])
              == if u.Ok? then Reply(u.value.0, None) else Reply(store, Some(u.error))
  {
    assert Dispatch(["update", id, description]) == Update(id, description);
  }

  /** `remove <id>` and `delete <id>` run `RemoveTask`. */
  lemma {:induction false} RunRemove(p: Platform, store: Store, files: seq<string>, clock: Clock, id: string)
    ensures var d := RemoveTask(store, id);
            && Run(p, store, files, clock, ["remove", id])
                 == (if d.Ok? then Reply(d.value, None) else Reply(store, Some(d.error)))
            && Run(p, store, files, clock, ["delete", id]) == Run(p, store, files, clock, ["remove", id])
  {
    assert Dispatch(["remove", id]) == Remove(id);
    assert Dispatch(["delete", id]) == Remove(id);
  }

  /** Each mark command runs `MarkTask` with its status and the first clock
      reading; for a findable task it succeeds and writes what `MarkTask` writes. */
  lemma {:induction false} RunMark(p: Platform, store: Store, files: seq<string>, clock: Clock, id: string, s: Status)
    ensures var m := MarkTask(p, store, id, Code(s), clock.first);
            Run(p, store, files, clock, [MarkWord(s), id])
              == if m.Ok? then Reply(m.value, None) else Reply(store, Some(m.error))
    ensures FindTask(p, store, id).Ok? ==> MarkTask(p, store, id, Code(s), clock.first).Ok?
  {
    assert Dispatch([MarkWord(s), id]) == Mark(id, s);
  }

  /** The end-to-end scenario, in any directory: after `add`, `mark-done <id>`
      then `show <id>` finds the added task with status done and the later
      update time. */
  lemma {:induction false} AddMarkDoneShow(p: Platform, store: Store, name: string, description: string,
                                           created: Clock, marked: Clock)
    requires Md5Like(p) && ClockParses(p, created)
    requires !Blank(marked.first) && p.parsesDate(marked.first)
    ensures var t := New(p, name, description, created);
            var s1 := Run(p, store, [], created, ["add", name, description]).store;
            var s2 := Run(p, s1, [], marked, ["mark-done", t.id]).store;
            FindTask(p, s2, t.id) == Ok(t.(status := Done, updatedAt := marked.first))
  {
    var t := New(p, name, description, created);
    var t' := t.(status := Done, updatedAt := marked.first);
    var s1 := Save(store, t);
    RunAdd(p, store, [], created, name, description);
    FindAfterCreate(p, store, name, description, created);
    RunMark(p, s1, [], marked, t.id, Done);
    RoundTrip(p, t);
    RoundTrip(p, t');
  }
}

=== FILE: common.dfy ===
/** Failure-compatible wrappers and the error kinds of the task tracker. */
module Common {

  /** A value that may be absent, such as a `null` argument. */
  datatype Option<+T> = None | Some(value: T)

  /** The outcome of an operation that either succeeds or fails with an error. */
  datatype Result<+T, +E> = Ok(value: T) | Err(error: E) {

    predicate IsFailure() {
      Err?
    }

    function PropagateFailure<U>(): Result<U, E>
      requires Err?
    {
      Err(error)
    }

    function Extract(): T
      requires Ok?
    {
      value
    }
  }

  /** Why a persisted task record was refused on load. */
  datatype LoadError =
    | MissingField(field: string)   // the property is absent from the record
    | NotAString(field: string)     // the property is neither a string nor null
    | NotAnInt32(field: string)     // the property is not a 32-bit integer
    | BlankField                    // a text field is empty or whitespace only
    | BadTimestamp                  // a timestamp does not parse as a date-time
    | BadStatus                     // the status code is not a defined status

  /** The failures a command can end in. */
  datatype Error =
    | EmptyId                       // blank id argument
    | EmptyDescription              // blank description on update
    | InvalidStatus                 // status value outside the defined set
    | NotFound                      // no stored record for the requested key
    | Corrupt(why: LoadError)       // a stored record failed validation
}

=== FILE: hex.dfy ===
/** Lower-case hexadecimal text of a byte string, as the task id is built:
    every digest byte is written with the format "x2". */
module Hex {
  import opened Common

  newtype byte = x: int | 0 <= x < 256

  const Digits: string := "0123456789abcdef"

  /** A character "x2" can emit. */
  predicate IsLowerHex(c: char) {
    '0' <= c <= '9' || 'a' <= c <= 'f'
  }

  /** The digit for a value below sixteen. */
  function Digit(n: nat): (c: char)
    requires n < 16
    ensures IsLowerHex(c)
  {
    Digits[n]
  }

  /** The value of a lower-case hexadecimal digit, if `c` is one. */
  function DigitValue(c: char): (r: Option<nat>)
    ensures r.Some? <==> IsLowerHex(c)
    ensures r.Some? ==> r.value < 16
  {
    if '0' <= c <= '9' then Some(c as int - '0' as int)
    else if 'a' <= c <= 'f' then Some(c as int - 'a' as int + 10)
    else None
  }

  /** Reading a digit back gives the value it was written for, and vice versa. */
  lemma DigitRoundTrip(n: nat, c: char)
    requires n < 16
    ensures DigitValue(Digit(n)) == Some(n)
    ensures DigitValue(c) == Some(n) ==> Digit(n) == c
  {
  }

  /** `b.ToString("x2")`: the high nibble, then the low nibble, zero-padded. */
  function EncodeByte(b: byte): (r: string)
    ensures |r| == 2 && IsLowerHex(r[0]) && IsLowerHex(r[1])
  {
    [Digit(b as int / 16), Digit(b as int % 16)]
  }

  /** The concatenated "x2" text of every byte, in order. */
  function Encode(bs: seq<byte>): (r: string)
    ensures |r| == 2 * |bs|
    ensures forall i :: 0 <= i < |r| ==> IsLowerHex(r[i])
  {
    if bs == [] then [] else EncodeByte(bs[0]) + Encode(bs[1..])
  }

  /** Reads lower-case hexadecimal text two digits per byte; `None` on an odd
      length or a character that is not a lower-case hexadecimal digit. */
  function Decode(s: string): (r: Option<seq<byte>>)
    ensures r.Some? ==> 2 * |r.value| == |s|
  {
    if |s| == 0 then Some([])
    else if |s| == 1 then None
    else
      match (DigitValue(s[0]), DigitValue(s[1]), Decode(s[2..]))
      case (Some(hi), Some(lo), Some(rest)) => Some([(hi * 16 + lo) as byte] + rest)
      case _ => None
  }

  /** Decoding reads one encoded byte off the front of the text. */
  lemma {:induction false} DecodeCons(b: byte, t: string)
    ensures Decode(EncodeByte(b) + t) == if Decode(t).Some? then Some([b] + Decode(t).value) else None
  {
    var s := EncodeByte(b) + t;
    var hi, lo := b as int / 16, b as int % 16;
    assert DigitValue(s[0]) == Some(hi) && DigitValue(s[1]) == Some(lo) by {
      assert s[0] == Digit(hi) && s[1] == Digit(lo);
      DigitRoundTrip(hi, s[0]);
      DigitRoundTrip(lo, s[1]);
    }
    assert s[2..] == t;
    assert (hi * 16 + lo) as byte == b;
  }

  /** Decoding undoes encoding. */
  lemma {:induction false} DecodeEncode(bs: seq<byte>)
    ensures Decode(Encode(bs)) == Some(bs)
  {
    if bs != [] {
      assert Encode(bs) == EncodeByte(bs[0]) + Encode(bs[1..]);
      DecodeCons(bs[0], Encode(bs[1..]));
      DecodeEncode(bs[1..]);
      assert [bs[0]] + bs[1..] == bs;
    }
  }

  /** A byte built from two nibbles splits back into them. */
  lemma NibblesSplit(hi: nat, lo: nat)
    requires hi < 16 && lo < 16
    ensures (hi * 16 + lo) / 16 == hi && (hi * 16 + lo) % 16 == lo
  {
  }

  /** Encoding undoes a successful decoding: the text is the canonical form. */
  lemma {:induction false} EncodeDecode(s: string, bs: seq<byte>)
    requires Decode(s) == Some(bs)
    ensures Encode(bs) == s
  {
    if |s| != 0 {
      var hi := DigitValue(s[0]).value;
      var lo := DigitValue(s[1]).value;
      var rest := Decode(s[2..]).value;
      var b := (hi * 16 + lo) as byte;
      assert bs == [b] + rest;
      NibblesSplit(hi, lo);
      DigitRoundTrip(hi, s[0]);
      DigitRoundTrip(lo, s[1]);
      assert EncodeByte(b) == [s[0], s[1]];
      EncodeDecode(s[2..], rest);
      assert bs[1..] == rest;
      assert Encode(bs) == EncodeByte(b) + Encode(rest);
      assert s == [s[0], s[1]] + s[2..];
    }
  }

  /** Different byte strings never share a hexadecimal text. */
  lemma {:induction false} EncodeInjective(a: seq<byte>, b: seq<byte>)
    ensures Encode(a) == Encode(b) <==> a == b
  {
    if Encode(a) == Encode(b) {
      DecodeEncode(a);
      DecodeEncode(b);
    }
  }
}

=== FILE: json.dfy ===
/** The persisted form of a task: the six properties `ToJson` writes and the
    validation `FromJson` applies when a record is loaded back. */
module TaskJson {
  import opened Common
  import opened Text
  import opened Tasks
  import Hex

  /** A JSON property value, as far as loading distinguishes it. `JNumber`
      holds an integral number; `JOther` is every other kind. */
  datatype JsonValue = JString(text: string) | JNumber(number: int) | JNull | JOther

  /** The properties of a record's root object, by name. */
  type Fields = map<string, JsonValue>

  const IdKey: string := "Id"
  const NameKey: string := "Name"
  const StatusKey: string := "Status"
  const DescriptionKey: string := "Description"
  const CreatedKey: string := "Created_at"
  const UpdatedKey: string := "Updated_at"

  /** The properties a record is written with and read from. */
  const Keys: set<string> := {IdKey, NameKey, StatusKey, DescriptionKey, CreatedKey, UpdatedKey}

  const Int32Min: int := -0x8000_0000
  const Int32Max: int := 0x7FFF_FFFF

  /** `GetProperty(key).GetString() ?? ""`: a string, with null read as empty. */
  function GetString(f: Fields, key: string): (r: Result<string, LoadError>)
    ensures key !in f ==> r == Err(MissingField(key))
    ensures key in f && f[key].JString? ==> r == Ok(f[key].text)
    ensures key in f && f[key].JNull? ==> r == Ok("")
    ensures r.Ok? <==> key in f && (f[key].JString? || f[key].JNull?)
    ensures r.Err? ==> r.error in {MissingField(key), NotAString(key)}
  {
    if key !in f then Err(MissingField(key))
    else match f[key]
      case JString(s) => Ok(s)
      case JNull => Ok("")
      case _ => Err(NotAString(key))
  }

  /** `GetProperty(key).GetInt32()`: a number that fits in 32 signed bits. */
  function GetInt32(f: Fields, key: string): (r: Result<int, LoadError>)
    ensures r.Ok? <==> key in f && f[key].JNumber? && Int32Min <= f[key].number <= Int32Max
    ensures r.Ok? ==> r.value == f[key].number
    ensures r.Err? ==> r.error in {MissingField(key), NotAnInt32(key)}
  {
    if key !in f then Err(MissingField(key))
    else match f[key]
      case JNumber(n) => if Int32Min <= n <= Int32Max then Ok(n) else Err(NotAnInt32(key))
      case _ => Err(NotAnInt32(key))
  }

  /** `ToJson`: the six properties a task is saved with, status as its code. */
  function ToJson(t: Task): (f: Fields)
    ensures f.Keys == Keys
  {
    map[IdKey := JString(t.id),
        NameKey := JString(t.name),
        StatusKey := JNumber(Code(t.status)),
        DescriptionKey := JString(t.description),
        CreatedKey := JString(t.createdAt),
        UpdatedKey := JString(t.updatedAt)]
  }

  /** The five text properties read from `f`, all present as strings or null. */
  predicate TextsReadable(f: Fields) {
    forall k :: k in Keys - {StatusKey} ==> k in f && (f[k].JString? || f[k].JNull?)
  }

  /** Every property `FromJson` reads is present with the kind it reads it as. */
  predicate Readable(f: Fields) {
    && TextsReadable(f)
    && StatusKey in f && f[StatusKey].JNumber?
    && Int32Min <= f[StatusKey].number <= Int32Max
  }

  /** The text of a property that `TextsReadable` guarantees. */
  function TextOf(f: Fields, k: string): string
    requires k in f
  {
    if f[k].JString? then f[k].text else ""
  }

  /** Some text property is empty, null or white space only. */
  predicate AnyBlank(f: Fields)
    requires TextsReadable(f)
  {
    exists k :: k in Keys - {StatusKey} && Blank(TextOf(f, k))
  }

  /** `AnyBlank` spelled out over the five text properties. */
  lemma {:induction false} AnyBlankOfFive(f: Fields)
    requires TextsReadable(f)
    ensures AnyBlank(f) <==> Blank(TextOf(f, IdKey)) || Blank(TextOf(f, NameKey))
                             || Blank(TextOf(f, DescriptionKey)) || Blank(TextOf(f, CreatedKey))
                             || Blank(TextOf(f, UpdatedKey))
  {
  }

  /** The record passes every check of `FromJson`, stated property by property. */
  predicate Loadable(p: Platform, f: Fields) {
    && Readable(f)
    && !AnyBlank(f)
    && p.parsesDate(TextOf(f, CreatedKey)) && p.parsesDate(TextOf(f, UpdatedKey))
    && IsDefined(f[StatusKey].number)
  }

  /** `FromJson`, after the file has been parsed: read the six properties in
      order, then refuse blank text, then unparsable timestamps, then an
      undefined status. */
  function FromJson(p: Platform, f: Fields): (r: Result<Task, LoadError>)
    ensures r.Ok? <==> Loadable(p, f)
    ensures r.Ok? ==> forall k :: k in Keys ==> f[k] == ToJson(r.value)[k]
    ensures Readable(f) && AnyBlank(f) ==> r == Err(BlankField)
    ensures Readable(f) && !AnyBlank(f)
            && !(p.parsesDate(TextOf(f, CreatedKey)) && p.parsesDate(TextOf(f, UpdatedKey)))
            ==> r == Err(BadTimestamp)
    ensures Readable(f) && !AnyBlank(f)
            && p.parsesDate(TextOf(f, CreatedKey)) && p.parsesDate(TextOf(f, UpdatedKey))
            && !IsDefined(f[StatusKey].number)
            ==> r == Err(BadStatus)
    ensures !Readable(f) ==> r.Err? && (r.error.MissingField? || r.error.NotAString? || r.error.NotAnInt32?)
  {
    var id :- GetString(f, IdKey);
    var name :- GetString(f, NameKey);
    var status :- GetInt32(f, StatusKey);
    var description :- GetString(f, DescriptionKey);
    var createdAt :- GetString(f, CreatedKey);
    var updatedAt :- GetString(f, UpdatedKey);
    assert Readable(f);
    assert id == TextOf(f, IdKey) && name == TextOf(f, NameKey);
    assert description == TextOf(f, DescriptionKey);
    assert createdAt == TextOf(f, CreatedKey) && updatedAt == TextOf(f, UpdatedKey);
    AnyBlankOfFive(f);
    if Blank(id) || Blank(name) || Blank(description) || Blank(createdAt) || Blank(updatedAt) then
      Err(BlankField)
    else if !p.parsesDate(createdAt) || !p.parsesDate(updatedAt) then
      Err(BadTimestamp)
    else if !IsDefined(status) then
      Err(BadStatus)
    else
      Ok(Task(id, name, description, FromCode(status), createdAt, updatedAt))
  }

  /** A task whose saved form passes validation: no blank text, and both
      timestamps parse. */
  predicate Storable(p: Platform, t: Task) {
    && !Blank(t.id) && !Blank(t.name) && !Blank(t.description)
    && !Blank(t.createdAt) && !Blank(t.updatedAt)
    && p.parsesDate(t.createdAt) && p.parsesDate(t.updatedAt)
  }

  /** Saving then loading reproduces every field exactly, and a saved task
      loads back exactly when it is storable. */
  lemma {:induction false} RoundTrip(p: Platform, t: Task)
    ensures FromJson(p, ToJson(t)).Ok? <==> Storable(p, t)
    ensures Storable(p, t) ==> FromJson(p, ToJson(t)) == Ok(t)
  {
    var f := ToJson(t);
    if Storable(p, t) {
      assert !AnyBlank(f);
    } else {
      assert !Loadable(p, f) by {
        if Blank(t.id) { assert Blank(TextOf(f, IdKey)); }
        if Blank(t.name) { assert Blank(TextOf(f, NameKey)); }
        if Blank(t.description) { assert Blank(TextOf(f, DescriptionKey)); }
        if Blank(t.createdAt) { assert Blank(TextOf(f, CreatedKey)); }
        if Blank(t.updatedAt) { assert Blank(TextOf(f, UpdatedKey)); }
      }
    }
  }

  /** Whatever loads is storable: it can be saved and loaded back unchanged. */
  lemma {:induction false} LoadedIsStorable(p: Platform, f: Fields)
    requires FromJson(p, f).Ok?
    ensures Storable(p, FromJson(p, f).value)
    ensures FromJson(p, ToJson(FromJson(p, f).value)) == FromJson(p, f)
  {
    var t := FromJson(p, f).value;
    assert !Blank(t.id) by { assert !Blank(TextOf(f, IdKey)); }
    assert !Blank(t.name) by { assert !Blank(TextOf(f, NameKey)); }
    assert !Blank(t.description) by { assert !Blank(TextOf(f, DescriptionKey)); }
    assert !Blank(t.createdAt) by { assert !Blank(TextOf(f, CreatedKey)); }
    assert !Blank(t.updatedAt) by { assert !Blank(TextOf(f, UpdatedKey)); }
    RoundTrip(p, t);
  }

  /** Loading looks at the six properties only. */
  lemma {:induction false} FromJsonReadsKeysOnly(p: Platform, f: Fields, g: Fields)
    requires forall k :: k in Keys ==> (k in f <==> k in g) && (k in f ==> f[k] == g[k])
    ensures FromJson(p, f) == FromJson(p, g)
  {
    assert GetString(f, IdKey) == GetString(g, IdKey);
    assert GetString(f, NameKey) == GetString(g, NameKey);
    assert GetInt32(f, StatusKey) == GetInt32(g, StatusKey);
    assert GetString(f, DescriptionKey) == GetString(g, DescriptionKey);
    assert GetString(f, CreatedKey) == GetString(g, CreatedKey);
    assert GetString(f, UpdatedKey) == GetString(g, UpdatedKey);
  }

  /** Properties other than the six are ignored on load. */
  lemma {:induction false} ExtraPropertiesIgnored(p: Platform, f: Fields, k: string, v: JsonValue)
    requires k !in Keys
    ensures FromJson(p, f[k := v]) == FromJson(p, f)
  {
    FromJsonReadsKeysOnly(p, f[k := v], f);
  }

  /** A freshly constructed task survives saving and loading when the digest
      is MD5 and both clock readings parse. */
  lemma {:induction false} NewRoundTrips(p: Platform, name: string, description: string, clock: Clock)
    requires Md5Like(p) && ClockParses(p, clock)
    ensures var t := New(p, name, description, clock); FromJson(p, ToJson(t)) == Ok(t)
    ensures !Blank(New(p, name, description, clock).id)
  {
    var t := New(p, name, description, clock);
    assert |t.id| == 32;
    assert !Blank(t.id) by {
      assert Hex.IsLowerHex(t.id[0]);
    }
    RoundTrip(p, t);
  }
}

=== FILE: listing.dfy ===
/** The `list` command: the option's status filter and the pass over every
    stored file in the order the directory enumerates them. */
module Listing {
  import opened Common
  import opened Tasks
  import opened Commands

  /** The out-of-range status `(TaskStatus)(-1)`, meaning "no filter". */
  const NoFilter: int := -1

  /** The option switch: the three status names select their status; anything
      else, an absent option included, selects no filter. */
  function FilterOf(option: Option<string>): (filter: int)
    ensures filter == NoFilter || IsDefined(filter)
    ensures filter == Code(Done) <==> option == Some("done")
    ensures filter == Code(Todo) <==> option == Some("todo")
    ensures filter == Code(InProgress) <==> option == Some("in-progress")
  {
    if option == Some("done") then Code(Done)
    else if option == Some("todo") then Code(Todo)
    else if option == Some("in-progress") then Code(InProgress)
    else NoFilter
  }

  /** Whether a loaded task is printed under `filter`: always without a
      filter, otherwise exactly when the filter casts to the task's status. */
  predicate Keep(filter: int, t: Task)
    ensures Keep(filter, t) <==> filter == NoFilter || (IsDefined(filter) && FromCode(filter) == t.status)
  {
    CodeBijective(t.status, t.status);
    filter == NoFilter || filter == Code(t.status)
  }

  /** The word the `list` option names a status by; unlike the display
      label, the to-do status is written "todo". */
  function OptionWord(s: Status): string {
    match s
    case Todo => "todo"
    case InProgress => "in-progress"
    case Done => "done"
  }

  /** Naming a status in the option keeps exactly the tasks with that status;
      any other option, an absent one included, keeps every task. */
  lemma {:induction false} FilterKeepsNamedStatus(option: Option<string>, t: Task)
    ensures forall s :: option == Some(OptionWord(s)) ==> (Keep(FilterOf(option), t) <==> t.status == s)
    ensures (forall s :: option != Some(OptionWord(s))) ==> Keep(FilterOf(option), t)
  {
    assert OptionWord(Todo) == "todo" && OptionWord(InProgress) == "in-progress" && OptionWord(Done) == "done";
    CodeBijective(t.status, Todo);
    CodeBijective(t.status, InProgress);
    CodeBijective(t.status, Done);
  }

  /** The tasks `filter` keeps, in their original order. */
  function Select(filter: int, ts: seq<Task>): (r: seq<Task>)
    ensures |r| <= |ts|
  {
    if ts == [] then []
    else (if Keep(filter, ts[0]) then [ts[0]] else []) + Select(filter, ts[1..])
  }

  /** The selection holds exactly the tasks of `ts` that the filter keeps. */
  lemma {:induction false} SelectMembers(filter: int, ts: seq<Task>)
    ensures forall t :: t in Select(filter, ts) <==> t in ts && Keep(filter, t)
  {
    if ts != [] {
      SelectMembers(filter, ts[1..]);
      assert ts == [ts[0]] + ts[1..];
    }
  }

  /** Without a filter every task is kept, in order. */
  lemma {:induction false} SelectAll(ts: seq<Task>)
    ensures Select(NoFilter, ts) == ts
  {
    if ts != [] {
      SelectAll(ts[1..]);
      assert [ts[0]] + ts[1..] == ts;
    }
  }

  /** Selecting from a longer sequence extends the earlier selection. */
  lemma {:induction false} SelectSnoc(filter: int, ts: seq<Task>, t: Task)
    ensures Select(filter, ts + [t]) == Select(filter, ts) + (if Keep(filter, t) then [t] else [])
  {
    var last := if Keep(filter, t) then [t] else [];
    if ts == [] {
      assert ts + [t] == [t];
      assert [t][1..] == [];
      assert Select(filter, [t]) == last + Select(filter, []);
    } else {
      var first := if Keep(filter, ts[0]) then [ts[0]] else [];
      var rest := Select(filter, ts[1..]);
      assert (ts + [t])[0] == ts[0];
      assert (ts + [t])[1..] == ts[1..] + [t];
      SelectSnoc(filter, ts[1..], t);
      assert Select(filter, ts + [t]) == first + (rest + last);
      assert Select(filter, ts) == first + rest;
      assert first + (rest + last) == (first + rest) + last;
    }
  }

  /** How the listing reads one enumerated file. */
  type Loader = string -> Result<Task, Error>

  /** `FromJson` of a stored file, as the listing calls it. */
  function LoaderOf(p: Platform, store: Store): Loader {
    k => Load(p, store, k)
  }

  /** Every listed file loaded, in order; the first failure otherwise. */
  function LoadEach(load: Loader, files: seq<string>): (r: Result<seq<Task>, Error>)
    ensures r.Ok? <==> forall i :: 0 <= i < |files| ==> load(files[i]).Ok?
    ensures r.Ok? ==> |r.value| == |files|
    ensures r.Ok? ==> forall i :: 0 <= i < |files| ==> load(files[i]) == Ok(r.value[i])
  {
    if files == [] then Ok([])
    else
      var t :- load(files[0]);
      var ts :- LoadEach(load, files[1..]);
      Ok([t] + ts)
  }

  /** Loading one more file extends a successful load by that file's task. */
  lemma {:induction false} LoadEachSnoc(load: Loader, files: seq<string>, f: string, t: Task)
    requires LoadEach(load, files).Ok? && load(f) == Ok(t)
    ensures LoadEach(load, files + [f]) == Ok(LoadEach(load, files).value + [t])
  {
    if files == [] {
      assert files + [f] == [f];
      assert [f][1..] == [];
      assert LoadEach(load, []) == Ok([]);
      assert LoadEach(load, [f]) == Ok([t] + []);
      assert [t] + [] == [] + [t];
    } else {
      assert (files + [f])[1..] == files[1..] + [f];
      assert (files + [f])[0] == files[0];
      var head := load(files[0]).value;
      LoadEachSnoc(load, files[1..], f, t);
      assert LoadEach(load, files).value == [head] + LoadEach(load, files[1..]).value;
      assert ([head] + LoadEach(load, files[1..]).value) + [t] == [head] + (LoadEach(load, files[1..]).value + [t]);
    }
  }

  /** One more file loaded: the load and the selection both extend. */
  lemma {:induction false} ExtendListing(load: Loader, files: seq<string>, i: nat, loaded: seq<Task>, filter: int, t: Task)
    requires i < |files| && LoadEach(load, files[..i]) == Ok(loaded) && load(files[i]) == Ok(t)
    ensures LoadEach(load, files[..i + 1]) == Ok(loaded + [t])
    ensures Select(filter, loaded + [t]) == Select(filter, loaded) + (if Keep(filter, t) then [t] else [])
  {
    LoadEachSnoc(load, files[..i], files[i], t);
    SelectSnoc(filter, loaded, t);
    assert files[..i + 1] == files[..i] + [files[i]];
  }

  /** A file that fails to load fails the load of every enumeration holding it. */
  lemma StopListing(load: Loader, files: seq<string>, i: nat)
    requires i < |files| && load(files[i]).Err?
    ensures LoadEach(load, files).Err?
  {
  }

  /** The listing pass over enumerated files with a given loader: each task
      the option's filter keeps is printed; the first file that fails to load
      ends the pass after the lines already printed. */
  method ListOver(load: Loader, files: seq<string>, option: Option<string>)
    returns (shown: seq<Task>, failure: Option<Error>)
    ensures failure.None? <==> LoadEach(load, files).Ok?
    ensures failure.None? ==> shown == Select(FilterOf(option), LoadEach(load, files).value)
    ensures failure.Some? ==>
      exists k :: 0 <= k < |files| && LoadEach(load, files[..k]).Ok?
        && load(files[k]) == Err(failure.value)
        && shown == Select(FilterOf(option), LoadEach(load, files[..k]).value)
  {
    var filter := FilterOf(option);
    shown, failure := [], None;
    ghost var loaded: seq<Task> := [];
    var i := 0;
    while i < |files|
      invariant 0 <= i <= |files|
      invariant LoadEach(load, files[..i]) == Ok(loaded)
      invariant shown == Select(filter, loaded)
    {
      var r := load(files[i]);
      if r.Err? {
        failure := Some(r.error);
        StopListing(load, files, i);
        return;
      }
      ExtendListing(load, files, i, loaded, filter, r.value);
      loaded := loaded + [r.value];
      if Keep(filter, r.value) {
        shown := shown + [r.value];
      }
      i := i + 1;
    }
    assert files[..i] == files;
  }

  /** `ListTasks`: the listing pass over the task directory's files, each
      loaded with `FromJson`. */
  method ListTasks(p: Platform, store: Store, files: seq<string>, option: Option<string>)
    returns (shown: seq<Task>, failure: Option<Error>)
    ensures failure.None? <==> LoadEach(LoaderOf(p, store), files).Ok?
    ensures failure.None? ==> shown == Select(FilterOf(option), LoadEach(LoaderOf(p, store), files).value)
    ensures failure.Some? ==>
      exists k :: 0 <= k < |files| && LoadEach(LoaderOf(p, store), files[..k]).Ok?
        && LoaderOf(p, store)(files[k]) == Err(failure.value)
        && shown == Select(FilterOf(option), LoadEach(LoaderOf(p, store), files[..k]).value)
  {
    shown, failure := ListOver(LoaderOf(p, store), files, option);
  }

  /** `files` lists every stored file exactly once. */
  ghost predicate Enumerates(store: Store, files: seq<string>) {
    && (forall i, j :: 0 <= i < j < |files| ==> files[i] != files[j])
    && (forall k :: k in store <==> k in files)
  }

  /** A complete listing prints exactly the stored tasks the filter keeps:
      each one appears and nothing else does. */
  lemma {:induction false} ListedAreExactlyMatching(load: Loader, store: Store, files: seq<string>, filter: int)
    requires Enumerates(store, files) && LoadEach(load, files).Ok?
    ensures forall t :: t in Select(filter, LoadEach(load, files).value)
              <==> Keep(filter, t) && exists k :: k in store && load(k) == Ok(t)
  {
    var loaded := LoadEach(load, files).value;
    SelectMembers(filter, loaded);
    forall t
      ensures t in loaded <==> exists k :: k in store && load(k) == Ok(t)
    {
      if t in loaded {
        var i :| 0 <= i < |loaded| && loaded[i] == t;
        assert load(files[i]) == Ok(t);
        assert files[i] in store;
      }
      if exists k :: k in store && load(k) == Ok(t) {
        var k :| k in store && load(k) == Ok(t);
        var i :| 0 <= i < |files| && files[i] == k;
        assert loaded[i] == t;
      }
    }
  }

  /** Without a filter a complete listing prints every enumerated file's task,
      one line per file, in enumeration order. */
  lemma {:induction false} NoFilterListsAll(load: Loader, files: seq<string>)
    requires LoadEach(load, files).Ok?
    ensures var shown := Select(FilterOf(None), LoadEach(load, files).value);
            |shown| == |files|
            && forall i :: 0 <= i < |files| ==> load(files[i]) == Ok(shown[i])
  {
    SelectAll(LoadEach(load, files).value);
  }
}

=== FILE: store.dfy ===
/** The command layer's task operations, with the task directory modelled as
    a map from file name to the parsed root object of that file. */
module Commands {
  import opened Common
  import opened Text
  import opened Tasks
  import opened TaskJson

  /** The task directory: one entry per file, named by file name. */
  type Store = map<string, Fields>

  /** The file a task id is stored under. */
  function KeyOf(id: string): (key: string)
    ensures |key| == |id| + 5 && key[..|id|] == id && key[|id|..] == ".json"
  {
    id + ".json"
  }

  /** Distinct ids never share a file. */
  lemma {:induction false} KeyOfInjective(a: string, b: string)
    ensures KeyOf(a) == KeyOf(b) <==> a == b
  {
    if KeyOf(a) == KeyOf(b) {
      assert a == KeyOf(a)[..|a|] == KeyOf(b)[..|b|] == b;
    }
  }

  /** `a` and `b` agree on every file other than `key`. */
  ghost predicate SameExcept(a: Store, b: Store, key: string) {
    forall k :: k != key ==> (k in a <==> k in b) && (k in a && k in b ==> a[k] == b[k])
  }

  /** Every stored record names the file it is stored in: its Id property is
      a string whose file name is the record's key. Saving keeps this true. */
  predicate WellKeyed(store: Store) {
    forall k :: k in store ==> IdKey in store[k] && store[k][IdKey].JString?
                               && KeyOf(store[k][IdKey].text) == k
  }

  /** `File.OpenRead` of a stored file followed by `FromJson`. */
  function Load(p: Platform, store: Store, key: string): (r: Result<Task, Error>)
    ensures key !in store ==> r == Err(NotFound)
    ensures key in store ==> (r.Ok? <==> FromJson(p, store[key]).Ok?)
    ensures key in store && r.Ok? ==> r.value == FromJson(p, store[key]).value
    ensures key in store && r.Err? ==> r.error == Corrupt(FromJson(p, store[key]).error)
  {
    if key !in store then Err(NotFound)
    else match FromJson(p, store[key])
      case Ok(t) => Ok(t)
      case Err(e) => Err(Corrupt(e))
  }

  /** `ToJson`: writes the task's record to its id's file, replacing any
      previous file of that name. */
  function Save(store: Store, t: Task): (s: Store)
    ensures KeyOf(t.id) in s && s[KeyOf(t.id)] == ToJson(t)
    ensures SameExcept(s, store, KeyOf(t.id))
  {
    store[KeyOf(t.id) := ToJson(t)]
  }

  /** Saving keeps every record in the file its id names. */
  lemma SavePreservesWellKeyed(store: Store, t: Task)
    requires WellKeyed(store)
    ensures WellKeyed(Save(store, t))
  {
  }

  /** `FindTask`: a blank id is refused before the directory is touched;
      otherwise the task is loaded from the id's file. */
  function FindTask(p: Platform, store: Store, id: string): (r: Result<Task, Error>)
    ensures Blank(id) ==> r == Err(EmptyId)
    ensures !Blank(id) && KeyOf(id) !in store ==> r == Err(NotFound)
    ensures !Blank(id) && KeyOf(id) in store ==> r == Load(p, store, KeyOf(id))
  {
    if Blank(id) then Err(EmptyId) else Load(p, store, KeyOf(id))
  }

  /** In a well-keyed store, a found task carries the id it was looked up by. */
  lemma {:induction false} FoundTaskHasId(p: Platform, store: Store, id: string)
    requires WellKeyed(store) && FindTask(p, store, id).Ok?
    ensures FindTask(p, store, id).value.id == id
  {
    var f := store[KeyOf(id)];
    KeyOfInjective(f[IdKey].text, id);
  }

  /** `CreateTask`: constructs the task and saves it; the new store and the
      task whose id is printed. */
  function CreateTask(p: Platform, store: Store, name: string, description: string, clock: Clock)
    : (r: (Store, Task))
    ensures r.1 == New(p, name, description, clock)
    ensures KeyOf(r.1.id) in r.0 && r.0[KeyOf(r.1.id)] == ToJson(r.1)
    ensures SameExcept(r.0, store, KeyOf(r.1.id))
  {
    var t := New(p, name, description, clock);
    (Save(store, t), t)
  }

  /** `show` after `add` finds exactly the task that was added, provided the
      digest is MD5 and both clock readings parse. */
  lemma {:induction false} FindAfterCreate(p: Platform, store: Store, name: string, description: string, clock: Clock)
    requires Md5Like(p) && ClockParses(p, clock)
    ensures var (s, t) := CreateTask(p, store, name, description, clock);
            FindTask(p, s, t.id) == Ok(t)
  {
    var (s, t) := CreateTask(p, store, name, description, clock);
    NewRoundTrips(p, name, description, clock);
    assert s[KeyOf(t.id)] == ToJson(t);
    assert Load(p, s, KeyOf(t.id)) == Ok(t);
  }

  /** `RemoveTask`: a blank id is refused; otherwise the id's file is deleted,
      silently doing nothing when there is none. */
  function RemoveTask(store: Store, id: string): (r: Result<Store, Error>)
    ensures r.Err? <==> Blank(id)
    ensures r.Err? ==> r.error == EmptyId
    ensures r.Ok? ==> KeyOf(id) !in r.value && SameExcept(r.value, store, KeyOf(id))
  {
    if Blank(id) then Err(EmptyId) else Ok(store - {KeyOf(id)})
  }

  /** Removing is idempotent, and a removed task is no longer found. */
  lemma {:induction false} RemoveThenFind(p: Platform, store: Store, id: string)
    requires !Blank(id)
    ensures FindTask(p, RemoveTask(store, id).value, id) == Err(NotFound)
    ensures RemoveTask(RemoveTask(store, id).value, id) == RemoveTask(store, id)
  {
    var k := KeyOf(id);
    assert (store - {k}) - {k} == store - {k};
  }

  /** `UpdateTask`: a blank description is refused before the task is looked
      up; otherwise the found task's description is set and the task saved
      under the id its record holds. */
  function UpdateTask(p: Platform, store: Store, id: string, description: string, now: string)
    : (r: Result<(Store, Task), Error>)
    ensures Blank(description) ==> r == Err(EmptyDescription)
    ensures !Blank(description) && FindTask(p, store, id).Err? ==> r == Err(FindTask(p, store, id).error)
    ensures r.Ok? <==> !Blank(description) && FindTask(p, store, id).Ok?
    ensures r.Ok? ==> var (s, t) := r.value; var before := FindTask(p, store, id).value;
                      && t.description == description && t.updatedAt == now
                      && t.id == before.id && t.name == before.name
                      && t.status == before.status && t.createdAt == before.createdAt
                      && KeyOf(t.id) in s && s[KeyOf(t.id)] == ToJson(t)
                      && SameExcept(s, store, KeyOf(t.id))
  {
    if Blank(description) then Err(EmptyDescription)
    else
      var t :- FindTask(p, store, id);
      var t' := SetDescription(t, description, now);
      Ok((Save(store, t'), t'))
  }

  /** In a well-keyed store an update touches only the id's own file, and
      loading it back gives the old task with the new description and time. */
  lemma {:induction false} UpdateThenFind(p: Platform, store: Store, id: string, description: string, now: string)
    requires WellKeyed(store) && p.parsesDate(now) && !Blank(now)
    requires UpdateTask(p, store, id, description, now).Ok?
    ensures var s := UpdateTask(p, store, id, description, now).value.0;
            var before := FindTask(p, store, id).value;
            && SameExcept(s, store, KeyOf(id))
            && FindTask(p, s, id) == Ok(before.(description := description, updatedAt := now))
            && WellKeyed(s)
  {
    var before := FindTask(p, store, id).value;
    FoundTaskHasId(p, store, id);
    LoadedIsStorable(p, store[KeyOf(id)]);
    var t := before.(description := description, updatedAt := now);
    RoundTrip(p, t);
  }

  /** Without that invariant the write follows the record, not the argument:
      a file "a.json" whose record says Id "b" is updated into "b.json". */
  lemma {:induction false} UpdateFollowsRecordedId(p: Platform, f: Fields, now: string)
    requires FromJson(p, f).Ok? && f[IdKey] == JString("b")
    ensures var r := UpdateTask(p, map["a.json" := f], "a", "new", now);
            r.Ok? && "b.json" in r.value.0 && "a.json" in r.value.0
  {
    var store := map["a.json" := f];
    LettersAreTrimmed("a");
    LettersAreTrimmed("new");
    assert KeyOf("a") == "a.json";
    var t := FromJson(p, f).value;
    assert t.id == "b" by { assert ToJson(t)[IdKey] == f[IdKey]; }
    assert FindTask(p, store, "a") == Ok(t);
    assert KeyOf(t.id) == "b.json";
  }

  /** `MarkTask`: an undefined status is refused before the task is looked up;
      otherwise the found task's status is set and the task saved. */
  function MarkTask(p: Platform, store: Store, id: string, code: int, now: string)
    : (r: Result<Store, Error>)
    ensures !IsDefined(code) ==> r == Err(InvalidStatus)
    ensures IsDefined(code) && FindTask(p, store, id).Err? ==> r == Err(FindTask(p, store, id).error)
    ensures r.Ok? <==> IsDefined(code) && FindTask(p, store, id).Ok?
    ensures r.Ok? ==> var before := FindTask(p, store, id).value;
                      var after := before.(status := FromCode(code), updatedAt := now);
                      && KeyOf(before.id) in r.value && r.value[KeyOf(before.id)] == ToJson(after)
                      && SameExcept(r.value, store, KeyOf(before.id))
  {
    if !IsDefined(code) then Err(InvalidStatus)
    else
      var t :- FindTask(p, store, id);
      var marked := SetStatus(t, code, now);
      if marked.Err? then Err(InvalidStatus) else Ok(Save(store, marked.value))
  }

  /** In a well-keyed store marking changes only the id's own file; loading it
      back gives the task with the new status and update time, and every
      other stored task is untouched. */
  lemma {:induction false} MarkThenFind(p: Platform, store: Store, id: string, code: int, now: string)
    requires WellKeyed(store) && p.parsesDate(now) && !Blank(now)
    requires MarkTask(p, store, id, code, now).Ok?
    ensures var s := MarkTask(p, store, id, code, now).value;
            var before := FindTask(p, store, id).value;
            && SameExcept(s, store, KeyOf(id))
            && FindTask(p, s, id) == Ok(before.(status := FromCode(code), updatedAt := now))
            && WellKeyed(s)
  {
    var before := FindTask(p, store, id).value;
    FoundTaskHasId(p, store, id);
    LoadedIsStorable(p, store[KeyOf(id)]);
    var t := before.(status := FromCode(code), updatedAt := now);
    RoundTrip(p, t);
  }

  /** `ShowTask`: the rendered line of the found task. */
  function ShowTask(p: Platform, store: Store, id: string): (r: Result<string, Error>)
    ensures r.Ok? <==> FindTask(p, store, id).Ok?
    ensures r.Ok? ==> r.value == Render(FindTask(p, store, id).value)
    ensures r.Err? ==> r.error == FindTask(p, store, id).error
  {
    var t :- FindTask(p, store, id);
    Ok(Render(t))
  }
}

=== FILE: task.dfy ===
/** The task entity: its closed status, the constructor's normalisation and
    id derivation, the field setters and the one-line rendering. */
module Tasks {
  import opened Common
  import opened Text
  import opened Hex

  /** The three statuses, in the order of their integer codes. */
  datatype Status = Todo | InProgress | Done

  /** `Enum.IsDefined` for the status enum: the codes 0, 1 and 2, which are
      exactly the codes the label table has an entry for. */
  predicate IsDefined(code: int)
    ensures IsDefined(code) <==> code in StatusMap
  {
    0 <= code <= 2
  }

  /** The integer a status is stored and compared as. */
  function Code(s: Status): (code: int)
    ensures IsDefined(code)
  {
    match s
    case Todo => 0
    case InProgress => 1
    case Done => 2
  }

  /** The status a defined code casts to. */
  function FromCode(code: int): (s: Status)
    requires IsDefined(code)
    ensures Code(s) == code
  {
    if code == 0 then Todo else if code == 1 then InProgress else Done
  }

  /** Codes and statuses are in one-to-one correspondence. */
  lemma CodeBijective(s: Status, t: Status)
    ensures FromCode(Code(s)) == s
    ensures Code(s) == Code(t) <==> s == t
  {
  }

  /** The fixed label table used when a task is displayed. */
  const StatusMap: map<int, string> := map[0 := "to-do", 1 := "in-progress", 2 := "done"]

  /** The display label of a status. */
  function Label(s: Status): (r: string)
    ensures Code(s) in StatusMap && r == StatusMap[Code(s)]
  {
    match s
    case Todo => "to-do"
    case InProgress => "in-progress"
    case Done => "done"
  }

  /** No two statuses share a label. */
  lemma LabelInjective(s: Status, t: Status)
    ensures Label(s) == Label(t) <==> s == t
  {
  }

  /** The services the entity takes from the platform: the content digest
      (MD5 of the UTF-8 bytes of its argument) and `DateTime.TryParse`. */
  datatype Platform = Platform(digest: string -> seq<byte>, parsesDate: string -> bool)

  /** The digest is MD5: sixteen bytes for every text. */
  ghost predicate Md5Like(p: Platform) {
    forall s :: |p.digest(s)| == 16
  }

  /** The two `DateTime.Now` readings a construction takes, in the order the
      field initialisers run: `first` for the update time, `second` for the
      creation time. The two differ when a clock tick falls between them. */
  datatype Clock = Clock(first: string, second: string)

  /** Both readings are non-blank text that `DateTime.TryParse` accepts. */
  predicate ClockParses(p: Platform, clock: Clock) {
    && !Blank(clock.first) && p.parsesDate(clock.first)
    && !Blank(clock.second) && p.parsesDate(clock.second)
  }

  /** One tracked work item. */
  datatype Task = Task(
    id: string,
    name: string,
    description: string,
    status: Status,
    createdAt: string,
    updatedAt: string)

  const NoName: string := "no name"
  const NoDesc: string := "no desc"

  /** A constructor argument as stored: the sentinel when blank, else trimmed. */
  function Normalise(v: string, sentinel: string): (r: string)
    requires !Blank(sentinel) && IsTrimmed(sentinel)
    ensures !Blank(r) && IsTrimmed(r)
    ensures Blank(v) ==> r == sentinel
    ensures !Blank(v) ==> r == Trim(v)
  {
    if Blank(v) then sentinel else Trim(v)
  }

  /** Normalising an already normalised value changes nothing. */
  lemma {:induction false} NormaliseIdempotent(v: string, sentinel: string)
    requires !Blank(sentinel) && IsTrimmed(sentinel)
    ensures Normalise(Normalise(v, sentinel), sentinel) == Normalise(v, sentinel)
  {
    if !Blank(v) {
      TrimIdempotent(v);
    }
  }

  /** The id for a text: the lower-case hexadecimal text of its digest. */
  function IdOf(p: Platform, text: string): (id: string)
    ensures |id| == 2 * |p.digest(text)|
    ensures forall i :: 0 <= i < |id| ==> IsLowerHex(id[i])
  {
    Encode(p.digest(text))
  }

  /** Two texts share an id exactly when they share a digest: the hexadecimal
      layer adds no collisions of its own. */
  lemma {:induction false} IdOfMatchesDigest(p: Platform, a: string, b: string)
    ensures IdOf(p, a) == IdOf(p, b) <==> p.digest(a) == p.digest(b)
  {
    EncodeInjective(p.digest(a), p.digest(b));
  }

  /** The public constructor; `clock` holds the readings of the field initialisers. */
  function New(p: Platform, name: string, description: string, clock: Clock): (t: Task)
    ensures !Blank(t.name) && IsTrimmed(t.name)
    ensures !Blank(t.description) && IsTrimmed(t.description)
    ensures Blank(name) ==> t.name == NoName
    ensures !Blank(name) ==> t.name == Trim(name)
    ensures Blank(description) ==> t.description == NoDesc
    ensures !Blank(description) ==> t.description == Trim(description)
    ensures t.id == IdOf(p, t.name + t.description + clock.second)
    ensures t.status == Todo && t.updatedAt == clock.first && t.createdAt == clock.second
  {
    assert NoName[0] == 'n' && NoDesc[0] == 'n';
    var n := Normalise(name, NoName);
    var d := Normalise(description, NoDesc);
    Task(IdOf(p, n + d + clock.second), n, d, Todo, clock.second, clock.first)
  }

  /** A name or description given with blank padding is stored without it. */
  lemma {:induction false} NewTrimsPadding(p: Platform, lead: string, name: string, trail: string,
                        description: string, clock: Clock)
    requires Blank(lead) && Blank(trail) && IsTrimmed(name) && !Blank(name)
    ensures New(p, lead + name + trail, description, clock).name == name
    ensures New(p, description, lead + name + trail, clock).description == name
  {
    TrimOfPadded(lead, name, trail);
  }

  /** The id depends on the three normalised fields only through their
      concatenation: equal concatenations give equal ids. */
  lemma IdDependsOnConcatenation(p: Platform, n1: string, d1: string, n2: string, d2: string, clock: Clock)
    requires New(p, n1, d1, clock).name + New(p, n1, d1, clock).description
          == New(p, n2, d2, clock).name + New(p, n2, d2, clock).description
    ensures New(p, n1, d1, clock).id == New(p, n2, d2, clock).id
  {
  }

  /** Arguments that are already trimmed and not blank are stored as given. */
  lemma {:induction false} NewKeepsTrimmed(p: Platform, name: string, description: string, clock: Clock)
    requires IsTrimmed(name) && !Blank(name) && IsTrimmed(description) && !Blank(description)
    ensures New(p, name, description, clock).name == name
    ensures New(p, name, description, clock).description == description
  {
    TrimOfPadded([], name, []);
    TrimOfPadded([], description, []);
    assert [] + name + [] == name;
    assert [] + description + [] == description;
  }

  /** Short letter-only words are trimmed and not blank. */
  lemma {:induction false} LettersAreTrimmed(w: string)
    requires 0 < |w| <= 3 && forall k :: 0 <= k < |w| ==> 'a' <= w[k] <= 'z'
    ensures IsTrimmed(w) && !Blank(w)
  {
    assert !IsWhiteSpace(w[0]);
  }

  /** Moving a character between name and description keeps the id. */
  lemma {:induction false} IdIgnoresFieldBoundary(p: Platform, clock: Clock)
    ensures New(p, "ab", "c", clock).id == New(p, "a", "bc", clock).id
  {
    LettersAreTrimmed("ab");
    LettersAreTrimmed("c");
    LettersAreTrimmed("a");
    LettersAreTrimmed("bc");
    NewKeepsTrimmed(p, "ab", "c", clock);
    NewKeepsTrimmed(p, "a", "bc", clock);
    assert "ab" + "c" == "a" + "bc";
    IdDependsOnConcatenation(p, "ab", "c", "a", "bc", clock);
  }

  /** A blank name and the literal sentinel name give the same task. */
  lemma {:induction false} BlankNameIsSentinel(p: Platform, blank: string, description: string, clock: Clock)
    requires Blank(blank)
    ensures New(p, blank, description, clock) == New(p, NoName, description, clock)
  {
    TrimOfPadded([], NoName, []);
    assert [] + NoName + [] == NoName;
  }

  /** The `Name` setter: stores the value verbatim and refreshes the update time. */
  function SetName(t: Task, v: string, now: string): (r: Task)
    ensures r.name == v && r.updatedAt == now
    ensures r.id == t.id && r.description == t.description
    ensures r.status == t.status && r.createdAt == t.createdAt
  {
    t.(name := v, updatedAt := now)
  }

  /** The `Description` setter: stores the value verbatim and refreshes the update time. */
  function SetDescription(t: Task, v: string, now: string): (r: Task)
    ensures r.description == v && r.updatedAt == now
    ensures r.id == t.id && r.name == t.name
    ensures r.status == t.status && r.createdAt == t.createdAt
  {
    t.(description := v, updatedAt := now)
  }

  /** The `Status` setter: refuses an undefined code, otherwise assigns it and
      refreshes the update time. */
  function SetStatus(t: Task, code: int, now: string): (r: Result<Task, Error>)
    ensures r.Ok? <==> IsDefined(code)
    ensures r.Err? ==> r.error == InvalidStatus
    ensures r.Ok? ==> Code(r.value.status) == code && r.value.updatedAt == now
    ensures r.Ok? ==> r.value.id == t.id && r.value.name == t.name
    ensures r.Ok? ==> r.value.description == t.description && r.value.createdAt == t.createdAt
  {
    if !IsDefined(code) then Err(InvalidStatus)
    else Ok(t.(status := FromCode(code), updatedAt := now))
  }

  /** One assignment through a setter. */
  datatype Mutation =
    | Rename(name: string, at: string)
    | Redescribe(description: string, at: string)
    | Restatus(code: int, at: string)

  /** The task after a sequence of setter calls. A refused status assignment
      throws before any field is touched and ends the sequence there, so the
      task is left as the earlier calls made it. */
  function Apply(t: Task, ms: seq<Mutation>): Task
    decreases |ms|
  {
    if ms == [] then t
    else match ms[0]
      case Rename(v, at) => Apply(SetName(t, v, at), ms[1..])
      case Redescribe(v, at) => Apply(SetDescription(t, v, at), ms[1..])
      case Restatus(c, at) =>
        var r := SetStatus(t, c, at);
        if r.Ok? then Apply(r.value, ms[1..]) else t
  }

  /** No setter path changes the id or the creation time. */
  lemma {:induction false} ApplyKeepsIdentity(t: Task, ms: seq<Mutation>)
    ensures Apply(t, ms).id == t.id
    ensures Apply(t, ms).createdAt == t.createdAt
    decreases |ms|
  {
    if ms != [] {
      match ms[0]
      case Rename(v, at) => ApplyKeepsIdentity(SetName(t, v, at), ms[1..]);
      case Redescribe(v, at) => ApplyKeepsIdentity(SetDescription(t, v, at), ms[1..]);
      case Restatus(c, at) =>
        var r := SetStatus(t, c, at);
        if r.Ok? {
          ApplyKeepsIdentity(r.value, ms[1..]);
        }
    }
  }

  /** `ToString`: the six display fields joined by ", " in the order id, name,
      label, created, updated and description. */
  function Render(t: Task): (r: string)
    ensures r == Join([t.id, t.name, Label(t.status), t.createdAt, t.updatedAt, t.description], ", ")
  {
    var sep := ", ";
    var fs := [t.id, t.name, Label(t.status), t.createdAt, t.updatedAt, t.description];
    assert Join(fs[5..], sep) == t.description;
    assert Join(fs[4..], sep) == t.updatedAt + sep + t.description;
    assert Join(fs[3..], sep) == t.createdAt + sep + (t.updatedAt + sep + t.description);
    assert Join(fs[2..], sep) == Label(t.status) + sep + (t.createdAt + sep + (t.updatedAt + sep + t.description));
    t.id + ", " + t.name + ", " + Label(t.status) + ", " + t.createdAt + ", "
      + t.updatedAt + ", " + t.description
  }

  /** The text before the first comma of a rendered task is its id when the
      id holds no comma, as every constructed id does. */
  lemma {:induction false} RenderStartsWithId(t: Task)
    requires ',' !in t.id
    ensures Before(Render(t), ',') == t.id
  {
    var rest := " " + t.name + ", " + Label(t.status) + ", " + t.createdAt + ", "
      + t.updatedAt + ", " + t.description;
    assert Render(t) == t.id + [','] + rest;
    BeforeOfJoined(t.id, ',', rest);
  }

  /** A lower-case hexadecimal text holds no comma. */
  lemma {:induction false} HexHasNoComma(id: string)
    requires forall i :: 0 <= i < |id| ==> IsLowerHex(id[i])
    ensures ',' !in id
  {
    assert forall i :: 0 <= i < |id| ==> id[i] != ',';
  }

  /** Every constructed id is free of commas, so a listed line begins with it. */
  lemma {:induction false} NewRenderStartsWithId(p: Platform, name: string, description: string, clock: Clock)
    ensures var t := New(p, name, description, clock); Before(Render(t), ',') == t.id
  {
    var t := New(p, name, description, clock);
    HexHasNoComma(t.id);
    RenderStartsWithId(t);
  }
}

=== FILE: text.dfy ===
/** The text rules the tracker relies on: .NET's notion of white space,
    `String.IsNullOrWhiteSpace`, `String.Trim()` and joining fields. */
module Text {

  /** `Char.IsWhiteSpace`: the Unicode space, line and paragraph separators
      plus the control characters U+0009..U+000D and U+0085. */
  predicate IsWhiteSpace(c: char) {
    || ('\U{9}' <= c <= '\U{D}')
    || c == ' '
    || c == '\U{85}'
    || c == '\U{A0}'
    || c == '\U{1680}'
    || ('\U{2000}' <= c <= '\U{200A}')
    || c == '\U{2028}'
    || c == '\U{2029}'
    || c == '\U{202F}'
    || c == '\U{205F}'
    || c == '\U{3000}'
  }

  /** `String.IsNullOrWhiteSpace` on a non-null string: empty, or white space
      only, that is, its leading white space runs to the end of the text. */
  predicate Blank(s: string)
    ensures Blank(s) <==> SkipLeading(s, 0) == |s|
  {
    forall i :: 0 <= i < |s| ==> IsWhiteSpace(s[i])
  }

  /** Neither end of `s` is white space. */
  predicate IsTrimmed(s: string) {
    s == [] || (!IsWhiteSpace(s[0]) && !IsWhiteSpace(s[|s| - 1]))
  }

  /** The first index at or after `i` that is not white space (`|s|` if none). */
  function SkipLeading(s: string, i: nat): (n: nat)
    requires i <= |s|
    ensures i <= n <= |s|
    ensures forall k :: i <= k < n ==> IsWhiteSpace(s[k])
    ensures n < |s| ==> !IsWhiteSpace(s[n])
    decreases |s| - i
  {
    if i == |s| || !IsWhiteSpace(s[i]) then i else SkipLeading(s, i + 1)
  }

  /** The end of `s[lo..j]` once its trailing white space is dropped. */
  function SkipTrailing(s: string, lo: nat, j: nat): (e: nat)
    requires lo <= j <= |s|
    ensures lo <= e <= j
    ensures forall k :: e <= k < j ==> IsWhiteSpace(s[k])
    ensures lo < e ==> !IsWhiteSpace(s[e - 1])
    decreases j
  {
    if j == lo || !IsWhiteSpace(s[j - 1]) then j else SkipTrailing(s, lo, j - 1)
  }

  /** `String.Trim()`: `s` without the white space at either end. */
  function Trim(s: string): (r: string)
    ensures |r| <= |s|
    ensures IsTrimmed(r)
    ensures Blank(s) <==> r == []
  {
    var i := SkipLeading(s, 0);
    var j := SkipTrailing(s, i, |s|);
    assert Blank(s) <==> i == j by {
      if i == j {
        forall k | 0 <= k < |s| ensures IsWhiteSpace(s[k]) {
        }
      } else {
        assert !IsWhiteSpace(s[j - 1]);
      }
    }
    s[i..j]
  }

  /** `SkipLeading` stops at the first index from `i` on that is not white space. */
  lemma {:induction false} SkipLeadingAt(s: string, i: nat, n: nat)
    requires i <= n <= |s|
    requires forall k :: i <= k < n ==> IsWhiteSpace(s[k])
    requires n < |s| ==> !IsWhiteSpace(s[n])
    ensures SkipLeading(s, i) == n
    decreases n - i
  {
    if i < n {
      SkipLeadingAt(s, i + 1, n);
    }
  }

  /** `SkipTrailing` stops at the last index down to `lo` after a character
      that is not white space. */
  lemma {:induction false} SkipTrailingAt(s: string, lo: nat, j: nat, e: nat)
    requires lo <= e <= j <= |s|
    requires forall k :: e <= k < j ==> IsWhiteSpace(s[k])
    requires lo < e ==> !IsWhiteSpace(s[e - 1])
    ensures SkipTrailing(s, lo, j) == e
    decreases j - e
  {
    if e < j {
      SkipTrailingAt(s, lo, j - 1, e);
    }
  }

  /** Two blank texts joined are blank. */
  lemma {:induction false} BlankJoin(a: string, b: string)
    requires Blank(a) && Blank(b)
    ensures Blank(a + b)
  {
    forall k | 0 <= k < |a + b|
      ensures IsWhiteSpace((a + b)[k])
    {
      if k < |a| {
        assert (a + b)[k] == a[k];
      } else {
        assert (a + b)[k] == b[k - |a|];
      }
    }
  }

  /** Trim is characterised independently of its definition: whatever blank
      padding surrounds a trimmed text, trimming recovers exactly that text. */
  lemma {:induction false} TrimOfPadded(lead: string, m: string, trail: string)
    requires Blank(lead) && Blank(trail) && IsTrimmed(m)
    ensures Trim(lead + m + trail) == m
  {
    var s := lead + m + trail;
    if m == [] {
      assert s == lead + trail;
      BlankJoin(lead, trail);
    } else {
      var i, j := |lead|, |lead| + |m|;
      assert forall k :: 0 <= k < i ==> s[k] == lead[k];
      assert forall k :: j <= k < |s| ==> s[k] == trail[k - j];
      assert s[i] == m[0] && s[j - 1] == m[|m| - 1];
      SkipLeadingAt(s, 0, i);
      SkipTrailingAt(s, i, |s|, j);
      assert s[i..j] == m;
    }
  }

  /** Every text is its trim with blank padding on either side. */
  lemma {:induction false} TrimSplits(s: string)
    ensures exists lead, trail :: Blank(lead) && Blank(trail) && s == lead + Trim(s) + trail
  {
    var i := SkipLeading(s, 0);
    var j := SkipTrailing(s, i, |s|);
    var lead, trail := s[..i], s[j..];
    assert Blank(lead) by {
      forall k | 0 <= k < |lead| ensures IsWhiteSpace(lead[k]) { assert lead[k] == s[k]; }
    }
    assert Blank(trail) by {
      forall k | 0 <= k < |trail| ensures IsWhiteSpace(trail[k]) { assert trail[k] == s[j + k]; }
    }
    assert s == lead + s[i..j] + trail;
  }

  /** Trimming twice is trimming once. */
  lemma {:induction false} TrimIdempotent(s: string)
    ensures Trim(Trim(s)) == Trim(s)
  {
    TrimOfPadded([], Trim(s), []);
    assert [] + Trim(s) + [] == Trim(s);
  }

  /** The fields joined by a separator, as string interpolation writes them. */
  function Join(parts: seq<string>, sep: string): string
    decreases |parts|
  {
    if |parts| == 0 then ""
    else if |parts| == 1 then parts[0]
    else parts[0] + sep + Join(parts[1..], sep)
  }

  /** The text of `s` before the first occurrence of `c` (all of `s` if none). */
  function Before(s: string, c: char): (r: string)
    ensures c !in r
    ensures |r| <= |s| && r == s[..|r|]
    ensures |r| < |s| ==> s[|r|] == c
  {
    if s == [] then []
    else if s[0] == c then []
    else [s[0]] + Before(s[1..], c)
  }

  /** A field free of the separator is recovered as the text before it. */
  lemma {:induction false} BeforeOfJoined(a: string, c: char, b: string)
    requires c !in a
    ensures Before(a + [c] + b, c) == a
  {
    if a != [] {
      assert (a + [c] + b)[1..] == a[1..] + [c] + b;
      BeforeOfJoined(a[1..], c, b);
    }
  }
}
